=== FILE: README.md ===
# Chat peer connection registry, modelled in Dafny

`chat.js` is a peer-to-peer chat program. One process listens on a TCP port
for inbound peers and lets its operator dial out to other peers. Every live
link, inbound or outbound, is a record `{id, socket, remoteAddress, remotePort}`
in one global list, `connections`. Ids come from a counter, `nextId`, that
starts at 1. The operator types commands (`connect`, `list`, `terminate`,
`send`, `exit`, ...). Socket callbacks (accept, connect, close, error) add
records to the list and remove them.

This project models that list and counter as an immutable `Registry` value.
Every callback and every operator line is a pure transition that returns the
new registry and the effects it requests: console reports, dials,
`end()`/`write()` calls and process exit. The runtime runs callbacks one at a
time, so each transition is atomic.

Modules:

- `Seqs`: `Option`, `Filter` (`Array.prototype.filter`), `FirstIndex`
  (`Array.prototype.find`) and the subsequence relation.
- `JsText`: `String.prototype.trim` (ECMAScript whitespace and line
  terminators), `split` on one character, and `join`. It also proves that
  split and join undo each other.
- `Registry`: the records, the counter, the validity invariant, and the
  three registry operations (insert, remove by id, remove by socket).
- `Host`: the environment a transition reads (`Env`) and the `Effect`s and
  `Report`s it produces.
- `Peers`: the accept callback and its close handler, plus `connectToPeer`
  with the connect and close callbacks of the socket it dials.
- `Commands`: `listConnections`, `terminateConnection`, `sendMessage`,
  `exitProgram` and the line handler.
- `Trace`: all callbacks as one `Event` type, a step function `Next`, a
  run over a sequence of events `Run`, and invariants over any event order.

Modelling choices:

- A socket is an opaque `nat` handle, so removal by socket is equality of
  handles. The handle that `new net.Socket()` would return is a parameter
  of the operator-line transition.
- `getMyIP()` is `Env.myIP`. The listening port is `Env.listeningPort`. It is
  kept as the string the process was started with, as in the source.
- The source compares text ids and ports with numbers using `==`. The model
  does this through `Env.toNumber`, which stands for JavaScript's
  string-to-number conversion. Its answer is the integer the string denotes,
  or `None` for NaN and for non-integral values. Every property holds for
  every such conversion.
- Two strings are compared exactly. This covers `destPort == listeningPort`
  and the port text of an outbound record against a new `destPort`.
- An inbound record keeps the numeric port its socket reports
  (`NumPort`). An outbound record keeps the operator's port text
  (`TextPort`), as the source stores it.

Four behaviours of the code worth knowing, which the model keeps:

- **Self-connect check.** The check compares the destination only with the
  address that `getMyIP()` returns. That address is the first non-internal
  IPv4 address when one exists. On such a host, `connect 127.0.0.1 <own port>`
  is not refused as a self-connect. `Commands.SelfConnectRefused` proves the
  refusal only for a host whose address query answers `127.0.0.1`.
- **Exit.** `exit` only asks each socket to end, then closes the server and
  exits. It does not empty the registry, and the model does not either.
- **Duplicate check.** This check looks only at established records.
  `Peers.DialsInFlightBothPass` shows that two dials to the same endpoint,
  issued before either connects, both pass. Once both connect, the registry
  holds two records for that endpoint.
- **Terminate.** `terminate` does not remove the record. It only requests
  `end()`. The later close event removes the record.

## Model

| member | source | states |
|---|---|---|
| `Seqs.Filter` | chat.js:52 | the filtered list holds exactly the records the test keeps, and nothing longer than the input |
| `Seqs.FirstIndex` | chat.js:144 | `find` answers the first matching index, and none exactly when no element matches |
| `Seqs.FilterIsSubseq` | chat.js:52 | a filter keeps its survivors in their original order |
| `Seqs.FilterTwice` | chat.js:52 | filtering twice with the same test equals filtering once |
| `Seqs.FilterRejectsOne` | chat.js:52 | a filter rejecting only index i deletes exactly that element |
| `JsText.Trim` | chat.js:178 | `trim` yields a slice of the line with only whitespace outside it and no whitespace at either end |
| `JsText.TrimTwice` | chat.js:178 | trimming is idempotent |
| `JsText.Split` | chat.js:178 | `split(" ")` yields at least one token and no token contains a space |
| `JsText.Join` | chat.js:214 | `Array.prototype.join`; a definition with no ensures of its own, related to `split` by `JsText.JoinSplit` and `JsText.SplitJoin` |
| `JsText.Utf16Length` | chat.js:154 | `length` counts UTF-16 code units: at least the number of characters, at most twice it, and equal to it exactly when no character lies above U+FFFF |
| `JsText.Utf16LengthAppend` | chat.js:154 | the code-unit length of a concatenation is the sum of the lengths |
| `JsText.Utf16LengthAllAstral` | chat.js:154 | a string of characters all above U+FFFF has twice as many code units as characters |
| `JsText.JoinSplit` | chat.js:178 | re-joining the tokens of a split with the separator gives back the string |
| `JsText.SplitJoin` | chat.js:178 | splitting the join of separator-free tokens gives back the tokens (converse round trip) |
| `JsText.JoinFromThirdToken` | chat.js:214 | `args.slice(2).join(" ")` is the string minus its first two tokens and the separator after each |
| `JsText.AdjacentSeparatorsGiveEmptyToken` | chat.js:178 | `"a  b".split(" ")` is `["a", "", "b"]`, so a doubled space yields an empty token |
| `Registry.InitialValid` | chat.js:11-12 | the initial empty list with counter 1 satisfies the id invariant |
| `Registry.Insert` | chat.js:31-37 | an insert appends one record with id = old counter, raises the counter by exactly 1, keeps earlier records, and keeps ids unique, ascending and below the counter |
| `Registry.RemoveById` | chat.js:52 | the id-filter drops every record with that id, keeps every other record, adds none, leaves the counter, and keeps the invariant |
| `Registry.RemoveBySocket` | chat.js:123 | the socket-filter drops every record on that socket, keeps every other record, adds none, leaves the counter, and keeps the invariant |
| `Registry.FilterKeepsAscending` | chat.js:52 | any filter of an id-ascending list is still id-ascending |
| `Registry.RemoveByIdKeepsOrder` | chat.js:52 | the records left after removal by id are in their original order |
| `Registry.RemoveByIdExact` | chat.js:48-52 | in a valid registry, closing the record at index i yields the list with exactly that record deleted |
| `Registry.RemoveByIdTwice` | chat.js:52 | a second close for the same id is a no-op |
| `Registry.RemoveAbsentId` | chat.js:52 | closing an id that has no record leaves the registry unchanged |
| `Registry.RemoveBySocketKeepsOrder` | chat.js:123 | the records left after removal by socket are in their original order |
| `Registry.RemoveBySocketTwice` | chat.js:123 | a second outbound close for the same socket is a no-op |
| `Registry.RemoveAbsentSocket` | chat.js:123 | closing a socket that has no record leaves the registry unchanged |
| `Peers.Accept` | chat.js:27-40 | an accept registers the socket with the numeric peer port under the old counter, raises the counter by one, announces that id, and keeps validity with a fresh id |
| `Peers.InboundClose` | chat.js:48-54 | the inbound close drops exactly the records with its id, keeps all others, leaves the counter, and keeps validity |
| `Peers.ConnectToPeer` | chat.js:90-103 | self-connect (`IsSelf`, chat.js:91) refused; otherwise an endpoint some record already has (`SameEndpoint` with the loose port comparison `PortMatches`, chat.js:96) refused; a dial is issued iff neither holds; the registry is never touched |
| `Peers.Connected` | chat.js:103-113 | a successful dial registers the client socket with the port text under the old counter and raises the counter by one |
| `Peers.OutboundClose` | chat.js:121-125 | the outbound close drops only records on that socket, leaves the counter, and changes nothing when the socket has no record |
| `Peers.DialsInFlightBothPass` | chat.js:95-110 | a second dial to an endpoint whose first dial is still pending passes the duplicate check, and both connects give two records for one endpoint |
| `Commands.Lookup` | chat.js:144 | the loose-equality `find` (`IdMatches`, used at chat.js:144 and chat.js:158) answers a record whose id the text denotes, none iff no record matches, and in a valid registry the unique matching record |
| `Commands.ListConnections` | chat.js:132-141 | an empty registry lists only "No active connections."; otherwise a header and one row per record in registry order |
| `Commands.ListIsAscending` | chat.js:132-141 | in a valid registry the listed ids are strictly ascending |
| `Commands.TerminateConnection` | chat.js:143-151 | an unknown id is reported; a known id only requests `end()` on its socket; the registry is unchanged either way |
| `Commands.SendMessage` | chat.js:153-165 | a message over 100 UTF-16 code units (`Utf16Length`) is refused before any lookup; an unknown id is reported; otherwise exactly one verbatim write to that socket; the registry is unchanged |
| `Commands.ExitProgram` | chat.js:167-174 | exit ends every registered socket in order, then closes the server, reports, and exits with status 0 |
| `Commands.HandleLine` | chat.js:177-224 | no line changes the registry; too few arguments give only the usage line; only `connect` dials, on the given client; only `send` writes, at most 100 UTF-16 code units |
| `Commands.Tokens` | chat.js:178 | `line.trim().split(" ")` yields at least one token and no token contains a space |
| `Commands.TokensRejoin` | chat.js:178 | joining the tokens with single spaces gives back the trimmed line |
| `Commands.HandleLineDispatch` | chat.js:180-222 | `help`, `myip`, `myport` report the help text, host address and port; `list` and `exit` run their operations; `connect`, `terminate`, `send` with enough arguments run theirs on the tokens in place; any other first token is reported as unknown |
| `Commands.ConnectLineDials` | chat.js:190-197 | a `connect` line with both arguments produces exactly one dial, on the given client, to the typed address and port, iff the endpoint is not this process and no record has it |
| `Commands.TerminateLiveId` | chat.js:202-207 | `terminate <id>` on a live id asks exactly that record's socket to end, reports the request, and leaves the registry |
| `Commands.MessageOf` | chat.js:214 | `args.slice(2).join(" ")`; a definition with no ensures of its own, tied to the line by `JsText.JoinFromThirdToken` and `Commands.SendWritesLineRemainder` |
| `Commands.SendWritesLineRemainder` | chat.js:209-216 | what a `send` line writes is the trimmed line without its first two tokens and their separators |
| `Commands.SendToLiveId` | chat.js:209-216 | a `send` of at most 100 UTF-16 code units to a live id makes exactly one write of the line's remainder to that socket, then reports |
| `Commands.LongSendRefused` | chat.js:153-157 | a `send` whose message exceeds 100 UTF-16 code units is refused whatever the id |
| `Commands.AstralMessageRefused` | chat.js:154 | a message of more than 50 characters all above U+FFFF is refused, since `length` counts each as two code units |
| `Commands.SelfConnectTokens` | chat.js:178 | `connect 127.0.0.1 5000` tokenises into its three words |
| `Commands.SelfConnectRefused` | chat.js:90-94 | on port 5000 with host address 127.0.0.1, `connect 127.0.0.1 5000` is refused as self-connect for any registry |
| `Trace.Next` | chat.js:27-227 | each callback or line keeps validity; only accept and connect advance the counter (by one); new records carry the old counter; only the four register/close callbacks change the registry; an inbound close leaves no record with its id and an outbound close none on its socket |
| `Trace.NextDispatch` | chat.js:27-227 | each event runs its own callback: accept and connect register through `Accept`/`Connected`, the two closes drop records through `InboundClose`/`OutboundClose`, an operator line runs the line handler with its client socket, the end of input runs `exitProgram`, and errors only report |
| `Trace.Run` | chat.js:11-12 | after any event sequence the counter has advanced by exactly the number of registrations and validity is kept |
| `Trace.CounterMonotone` | chat.js:32 | the counter never goes back: a prefix of the events leaves it no further on |
| `Trace.IdsNeverReused` | chat.js:105 | every record after any events was there before or has an id at least the starting counter, so removed ids never return |
| `Trace.UnregisteredSocketHasNoRecord` | chat.js:101-124 | a socket that no event registers never gets a record |
| `Trace.FailedDialCloseIsNoOp` | chat.js:121-124 | however many events intervene, the close of a dial that never connected changes nothing |
| `Trace.ReachableIsValid` | chat.js:11-12 | every registry reachable from the initial state satisfies the id invariant |

## Left out

- Sockets, `server.listen`, `server.close`, `socket.end` and `socket.write`
  are I/O. They appear only as `Effect` values, and a socket is an opaque
  handle.
- The exact console wording, `readline` prompting and the help text are
  display only. Each console line is a `Report` tag.
- `getMyIP()` and `os.networkInterfaces()` (chat.js:14-25) are an
  environment query. The model reads the answer as `Env.myIP`.
- `process.argv` handling and the usage exit (chat.js:5-9) are process
  plumbing. The listening port is given as `Env.listeningPort`.
- The inbound data handlers (chat.js:41-47, 116-120) only trim and print.
  They do not touch the registry.
- JavaScript's string-to-number conversion is the parameter
  `Env.toNumber`. The model does not define it.
- A `char` is a Unicode scalar value. A JavaScript string can also hold an
  unpaired surrogate code unit, which no `char` stands for, so such strings
  are not modelled. Every other string is, and `JsText.Utf16Length` counts
  it as `length` does.
- A socket's `remotePort` can be undefined after the socket is destroyed.
  The model does not cover this and always gives accepted sockets a numeric
  port.
- Callbacks are atomic and events arrive in any order. The model does not
  constrain which events the runtime may deliver. An inbound close event
  may carry any id, including the id of an outbound record, and it removes
  the records with that id. The program cannot do this, because each
  inbound close handler knows only the id its own accept assigned. All
  invariants proved over `Trace.Run` hold for this larger set of runs, so
  they hold for the program's runs too.
- `nextId` is a JavaScript number, a double. Past 2^53, `nextId++` no
  longer yields a fresh value, and ids would repeat. The model's counter is
  an unbounded `nat`, so `Trace.IdsNeverReused` holds without this bound.

=== FILE: commands.dfy ===
/**
 The operator's commands and the line handler that dispatches them. No
 command changes the registry: `terminate` and `exit` only ask sockets to
 end, `connect` only dials, and records come and go through the socket
 callbacks of `Peers`.
 */
module Commands {
  import opened Seqs
  import opened JsText
  import opened Registry
  import opened Host
  import opened Peers

  /** The longest message `send` accepts, in UTF-16 code units. */
  const MaxMessageLength: nat := 100

  /** `c.id == id` with JavaScript's loose equality: the numeric id against
      the number the id text denotes. */
  predicate IdMatches(env: Env, c: Connection, idText: string) {
    env.toNumber(idText) == Some(c.id)
  }

  /** `connections.find((c) => c.id == id)`. */
  function Lookup(env: Env, r: Registry, idText: string): (found: Option<Connection>)
    ensures found.Some? ==> found.value in r.connections && IdMatches(env, found.value, idText)
    ensures found.None? <==> forall i :: 0 <= i < |r.connections| ==> !IdMatches(env, r.connections[i], idText)
    ensures Valid(r) ==>
      (forall i :: 0 <= i < |r.connections| && IdMatches(env, r.connections[i], idText)
        ==> found == Some(r.connections[i]))
  {
    match FirstIndex(r.connections, (c: Connection) => IdMatches(env, c, idText))
    case None => None
    case Some(k) => Some(r.connections[k])
  }

  /** `listConnections`: the empty-state line alone, or a header and then
      one row per record in registry order. */
  function ListConnections(r: Registry): (s: Step)
    ensures s.registry == r
    ensures |r.connections| == 0 <==> s.effects == [Say(NoActiveConnections)]
    ensures |r.connections| > 0 ==>
      && |s.effects| == |r.connections| + 1
      && s.effects[0] == Say(ListHeader)
      && forall i :: 0 <= i < |r.connections| ==>
           s.effects[i + 1] == Say(ListRow(r.connections[i].id, r.connections[i].remoteAddress, r.connections[i].remotePort))
  {
    var cs := r.connections;
    if |cs| == 0 then Step(r, [Say(NoActiveConnections)])
    else Step(r, [Say(ListHeader)]
      + seq(|cs|, i requires 0 <= i < |cs| => Say(ListRow(cs[i].id, cs[i].remoteAddress, cs[i].remotePort))))
  }

  /** In a valid registry the listed ids are strictly ascending. */
  lemma ListIsAscending(r: Registry)
    requires Valid(r)
    ensures var rows := ListConnections(r).effects[1..];
      forall i, j :: 0 <= i < j < |rows| ==> rows[i].report.rowId < rows[j].report.rowId
  {
    var cs := r.connections;
    var effects := ListConnections(r).effects;
    if |cs| > 0 {
      forall i, j | 0 <= i < j < |effects| - 1
        ensures effects[1..][i].report.rowId < effects[1..][j].report.rowId
      {
        assert effects[1..][i] == effects[i + 1] == Say(ListRow(cs[i].id, cs[i].remoteAddress, cs[i].remotePort));
        assert effects[1..][j] == effects[j + 1] == Say(ListRow(cs[j].id, cs[j].remoteAddress, cs[j].remotePort));
      }
    }
  }

  /** `terminateConnection`: an unknown id is reported; a known one only
      has its socket asked to end. The record stays until the close
      event removes it. */
  function TerminateConnection(env: Env, r: Registry, idText: string): (s: Step)
    ensures s.registry == r
    ensures (forall i :: 0 <= i < |r.connections| ==> !IdMatches(env, r.connections[i], idText))
      ==> s.effects == [Say(NoConnectionFound(idText))]
    ensures Valid(r) ==>
      (forall i :: 0 <= i < |r.connections| && IdMatches(env, r.connections[i], idText)
        ==> s.effects == [End(r.connections[i].socket), Say(TerminationRequested(idText))])
  {
    match Lookup(env, r, idText)
    case None => Step(r, [Say(NoConnectionFound(idText))])
    case Some(c) => Step(r, [End(c.socket), Say(TerminationRequested(idText))])
  }

  /** `sendMessage`: the length limit comes first, whatever the id; then an
      unknown id is reported; otherwise the message is written once,
      verbatim, to that connection's socket. */
  function SendMessage(env: Env, r: Registry, idText: string, message: string): (s: Step)
    ensures s.registry == r
    ensures Utf16Length(message) > MaxMessageLength ==> s.effects == [Say(MessageTooLong)]
    ensures Utf16Length(message) <= MaxMessageLength
      && (forall i :: 0 <= i < |r.connections| ==> !IdMatches(env, r.connections[i], idText))
      ==> s.effects == [Say(NoConnectionFound(idText))]
    ensures Valid(r) && Utf16Length(message) <= MaxMessageLength ==>
      forall i :: 0 <= i < |r.connections| && IdMatches(env, r.connections[i], idText)
        ==> s.effects == [Write(r.connections[i].socket, message), Say(MessageSent(idText))]
  {
    if Utf16Length(message) > MaxMessageLength then Step(r, [Say(MessageTooLong)])
    else match Lookup(env, r, idText)
      case None => Step(r, [Say(NoConnectionFound(idText))])
      case Some(c) => Step(r, [Write(c.socket, message), Say(MessageSent(idText))])
  }

  /** The limit counts code units, not characters: a message of more than
      50 characters that all lie above U+FFFF is refused, for any id. */
  lemma AstralMessageRefused(env: Env, r: Registry, idText: string, message: string)
    requires |message| > MaxMessageLength / 2
    requires forall k :: 0 <= k < |message| ==> message[k] as int > 0xFFFF
    ensures SendMessage(env, r, idText, message).effects == [Say(MessageTooLong)]
  {
    Utf16LengthAllAstral(message);
  }

  /** `exitProgram`: ask every registered socket to end, in registry order,
      then stop the server, report and exit with status 0. The registry
      itself is not emptied: the process ends first. */
  function ExitProgram(r: Registry): (s: Step)
    ensures s.registry == r
    ensures |s.effects| == |r.connections| + 3
    ensures forall i :: 0 <= i < |r.connections| ==> s.effects[i] == End(r.connections[i].socket)
    ensures s.effects[|r.connections|..] == [CloseServer, Say(ProgramTerminated), ExitProcess(0)]
  {
    var cs := r.connections;
    var ends := seq(|cs|, i requires 0 <= i < |cs| => End(cs[i].socket));
    Step(r, ends + [CloseServer, Say(ProgramTerminated), ExitProcess(0)])
  }

  /** `line.trim().split(" ")`. */
  function Tokens(line: string): (args: seq<string>)
    ensures |args| >= 1
    ensures forall k :: 0 <= k < |args| ==> ' ' !in args[k]
  {
    Split(Trim(line), ' ')
  }

  /** Rejoining the tokens with single spaces gives back the trimmed line,
      so tokenising loses nothing but the whitespace at the ends. */
  lemma TokensRejoin(line: string)
    ensures Join(Tokens(line), ' ') == Trim(line)
  {
    JoinSplit(Trim(line), ' ');
  }

  /** `args.slice(2).join(" ")`, the message of a `send` line. */
  function MessageOf(args: seq<string>): string
    requires |args| >= 2
  {
    Join(args[2..], ' ')
  }

  /** The commands the line handler knows. */
  const CommandNames: set<string> :=
    {"help", "myip", "myport", "connect", "list", "terminate", "send", "exit"}

  /** The line handler: split the trimmed line on single spaces, take the
      first token as the command, check the argument count, dispatch.
      `client` is the socket a `connect` would create. Whatever the line,
      the registry is unchanged, a short argument list yields its usage
      line and nothing else, only `connect` dials and only `send` writes. */
  function HandleLine(env: Env, r: Registry, client: Socket, line: string): (s: Step)
    ensures s.registry == r
    ensures var args := Tokens(line);
      && (args[0] == "connect" && |args| < 3 ==> s.effects == [Say(ConnectUsage)])
      && (args[0] == "terminate" && |args| < 2 ==> s.effects == [Say(TerminateUsage)])
      && (args[0] == "send" && |args| < 3 ==> s.effects == [Say(SendUsage)])
    ensures forall e :: e in s.effects && e.Dial? ==> Tokens(line)[0] == "connect" && e.client == client
    ensures forall e :: e in s.effects && e.Write? ==> Tokens(line)[0] == "send" && Utf16Length(e.data) <= MaxMessageLength
  {
    var args := Tokens(line);
    match args[0]
    case "help" => Step(r, [Say(HelpText)])
    case "myip" => Step(r, [Say(MyAddress(env.myIP))])
    case "myport" => Step(r, [Say(MyPort(env.listeningPort))])
    case "connect" =>
      if |args| < 3 then Step(r, [Say(ConnectUsage)])
      else ConnectToPeer(env, r, client, args[1], args[2])
    case "list" => ListConnections(r)
    case "terminate" =>
      if |args| < 2 then Step(r, [Say(TerminateUsage)])
      else TerminateConnection(env, r, args[1])
    case "send" =>
      if |args| < 3 then Step(r, [Say(SendUsage)])
      else SendMessage(env, r, args[1], MessageOf(args))
    case "exit" => ExitProgram(r)
    case _ => Step(r, [Say(UnknownCommand)])
  }

  /** Each command is handed to its operation: `list` and `exit` directly,
      and, given enough arguments, `connect` with the destination and port
      tokens, `terminate` with the id token, `send` with the id token and
      the rejoined remainder. The three queries report the help text, the
      host address and the listening port; any other first token is
      reported as unknown. */
  lemma HandleLineDispatch(env: Env, r: Registry, client: Socket, line: string)
    ensures var args := Tokens(line);
      var s := HandleLine(env, r, client, line);
      && (args[0] == "help" ==> s.effects == [Say(HelpText)])
      && (args[0] == "myip" ==> s.effects == [Say(MyAddress(env.myIP))])
      && (args[0] == "myport" ==> s.effects == [Say(MyPort(env.listeningPort))])
      && (args[0] == "list" ==> s == ListConnections(r))
      && (args[0] == "exit" ==> s == ExitProgram(r))
      && (args[0] !in CommandNames ==> s.effects == [Say(UnknownCommand)])
      && (args[0] == "connect" && |args| >= 3 ==> s == ConnectToPeer(env, r, client, args[1], args[2]))
      && (args[0] == "terminate" && |args| >= 2 ==> s == TerminateConnection(env, r, args[1]))
      && (args[0] == "send" && |args| >= 3 ==> s == SendMessage(env, r, args[1], MessageOf(args)))
  {
  }

  /** A `connect` line with both arguments dials exactly when the endpoint
      is not this process and no record has it, and then it issues that
      one dial, on `client`, to the typed address and port text. */
  lemma ConnectLineDials(env: Env, r: Registry, client: Socket, line: string)
    requires Tokens(line)[0] == "connect" && |Tokens(line)| >= 3
    ensures var args := Tokens(line);
      HandleLine(env, r, client, line).effects == [Dial(client, args[1], args[2])]
      <==> (!IsSelf(env, args[1], args[2])
            && forall i :: 0 <= i < |r.connections| ==> !SameEndpoint(env, r.connections[i], args[1], args[2]))
  {
  }

  /** `terminate <id>` on a live id asks exactly that record's socket to
      end and reports the request; the record itself stays. */
  lemma TerminateLiveId(env: Env, r: Registry, client: Socket, line: string, i: nat)
    requires Valid(r) && i < |r.connections|
    requires Tokens(line)[0] == "terminate" && |Tokens(line)| >= 2
    requires IdMatches(env, r.connections[i], Tokens(line)[1])
    ensures var s := HandleLine(env, r, client, line);
      && s.registry == r
      && s.effects == [End(r.connections[i].socket), Say(TerminationRequested(Tokens(line)[1]))]
  {
  }

  /** The message a `send` line writes is the trimmed line with its first
      two space-separated tokens and the two spaces after them removed. */
  lemma SendWritesLineRemainder(env: Env, r: Registry, client: Socket, line: string)
    requires Tokens(line)[0] == "send" && |Tokens(line)| >= 3
    ensures var t := Trim(line);
      var args := Tokens(line);
      var rest := |args[0]| + |args[1]| + 2;
      rest <= |t|
      && forall e :: e in HandleLine(env, r, client, line).effects && e.Write? ==> e.data == t[rest..]
  {
    JoinFromThirdToken(Trim(line), ' ');
  }

  /** A well-formed `send` to a live id of at most 100 UTF-16 code units performs
      exactly one write, of the rest of the line. */
  lemma SendToLiveId(env: Env, r: Registry, client: Socket, line: string, i: nat)
    requires Valid(r) && i < |r.connections|
    requires Tokens(line)[0] == "send" && |Tokens(line)| >= 3
    requires IdMatches(env, r.connections[i], Tokens(line)[1])
    requires Utf16Length(MessageOf(Tokens(line))) <= MaxMessageLength
    ensures var t := Trim(line);
      var args := Tokens(line);
      |args[0]| + |args[1]| + 2 <= |t|
      && HandleLine(env, r, client, line).effects
        == [Write(r.connections[i].socket, t[|args[0]| + |args[1]| + 2..]), Say(MessageSent(args[1]))]
  {
    JoinFromThirdToken(Trim(line), ' ');
  }

  /** A `send` whose message exceeds 100 UTF-16 code units is refused for
      every id, live or not. */
  lemma LongSendRefused(env: Env, r: Registry, client: Socket, line: string)
    requires Tokens(line)[0] == "send" && |Tokens(line)| >= 3
    requires Utf16Length(MessageOf(Tokens(line))) > MaxMessageLength
    ensures HandleLine(env, r, client, line).effects == [Say(MessageTooLong)]
  {
  }

  /** How the line `connect 127.0.0.1 5000` splits. */
  lemma SelfConnectTokens(line: string)
    requires line == "connect 127.0.0.1 5000"
    ensures Tokens(line) == ["connect", "127.0.0.1", "5000"]
  {
    SelfConnectLineIsTrimmed(line);
    SelfConnectLineSplits(line);
  }

  lemma SelfConnectLineIsTrimmed(line: string)
    requires line == "connect 127.0.0.1 5000"
    ensures Trim(line) == line
  {
    assert line[0] == 'c' && line[|line| - 1] == '0';
    TrimOfTrimmed(line);
  }

  lemma SelfConnectLineSplits(line: string)
    requires line == "connect 127.0.0.1 5000"
    ensures Split(line, ' ') == ["connect", "127.0.0.1", "5000"]
  {
    var parts := ["connect", "127.0.0.1", "5000"];
    assert Join(parts[2..], ' ') == "5000";
    assert Join(parts[1..], ' ') == "127.0.0.1 5000";
    assert Join(parts, ' ') == line;
    SplitJoin(parts, ' ');
  }

  /** Started on port 5000 on a host whose address query answers
      127.0.0.1, the line `connect 127.0.0.1 5000` is refused as a
      connection to self, whatever the registry holds. */
  lemma SelfConnectRefused(env: Env, r: Registry, client: Socket, line: string)
    requires env.myIP == "127.0.0.1" && env.listeningPort == "5000"
    requires line == "connect 127.0.0.1 5000"
    ensures HandleLine(env, r, client, line).effects == [Say(CannotConnectToSelf)]
  {
    SelfConnectTokens(line);
  }
}

=== FILE: host.dfy ===
/**
 What the chat peer takes from its surroundings and what it hands back to
 them. Environment queries become fields of `Env`; console lines and socket
 calls become `Effect`s that a transition returns next to the new registry.
 */
module Host {
  import opened Seqs
  import opened Registry

  /** The environment a transition reads.
      - `myIP`: what the host-address query answers at that moment (the
        first non-internal IPv4 address, or "127.0.0.1").
      - `listeningPort`: the listening-port argument, as the string the
        process was started with.
      - `toNumber`: JavaScript's string-to-number conversion, restricted to
        the integral results it can produce (`None` stands for NaN and for
        non-integral values, which equal no id or port). */
  datatype Env = Env(myIP: string, listeningPort: string, toNumber: string -> Option<int>)

  /** One console line, by its meaning rather than its exact wording. */
  datatype Report =
    | HelpText
    | MyAddress(ip: string)
    | MyPort(portText: string)
    | ConnectUsage
    | TerminateUsage
    | SendUsage
    | UnknownCommand
    | CannotConnectToSelf
    | ConnectionExists
    | NewConnectionAccepted(acceptedId: nat, acceptedAddress: string, acceptedPort: nat)
    | ConnectionEstablished(establishedId: nat, destIP: string, destPort: string)
    | InboundConnectionClosed(closedId: nat, closedAddress: string, closedPort: nat)
    | OutboundConnectionClosed(closedIP: string, closedPortText: string)
    | SocketError(socketMessage: string)
    | ConnectionError(connectMessage: string)
    | NoActiveConnections
    | ListHeader
    | ListRow(rowId: nat, rowAddress: string, rowPort: Port)
    | NoConnectionFound(missingId: string)
    | TerminationRequested(endedId: string)
    | MessageTooLong
    | MessageSent(sentId: string)
    | ProgramTerminated

  /** What a transition asks of the runtime, in order. */
  datatype Effect =
    | Say(report: Report)
      /** open an outbound socket `client` to `ip`:`port` */
    | Dial(client: Socket, ip: string, port: string)
      /** `socket.end()`: a half-close request; the close event comes later */
    | End(socket: Socket)
      /** `socket.write(data)`, verbatim */
    | Write(target: Socket, data: string)
      /** `server.close()` */
    | CloseServer
      /** `process.exit(code)` */
    | ExitProcess(code: int)

  /** The outcome of one atomic transition: the registry afterwards and the
      effects it requested. */
  datatype Step = Step(registry: Registry, effects: seq<Effect>)
}

=== FILE: js_text.dfy ===
/**
 The three string operations the line handler applies to operator input:
 `String.prototype.trim`, `String.prototype.split` with a one-character
 separator, and `Array.prototype.join`, together with `length`. A `char`
 is a Unicode scalar value; `Utf16Length` counts a string as JavaScript
 does, one code unit per character up to U+FFFF and two (a surrogate pair)
 for each character above it.
 */
module JsText {

  /** The characters `trim` removes: the WhiteSpace and LineTerminator
      code points of ECMA-262, the ECMAScript standard. */
  const Whitespace: set<char> := {
    '\t', '\n', '\U{B}', '\U{C}', '\r', ' ', '\U{A0}', '\U{1680}',
    '\U{2000}', '\U{2001}', '\U{2002}', '\U{2003}', '\U{2004}', '\U{2005}',
    '\U{2006}', '\U{2007}', '\U{2008}', '\U{2009}', '\U{200A}',
    '\U{2028}', '\U{2029}', '\U{202F}', '\U{205F}', '\U{3000}', '\U{FEFF}'
  }

  predicate IsWhitespace(c: char) {
    c in Whitespace
  }

  /** How many whitespace characters `s` starts with. */
  function LeadingWhitespace(s: string): (n: nat)
    ensures n <= |s|
    ensures forall k :: 0 <= k < n ==> IsWhitespace(s[k])
    ensures n < |s| ==> !IsWhitespace(s[n])
    decreases |s|
  {
    if |s| > 0 && IsWhitespace(s[0]) then 1 + LeadingWhitespace(s[1..]) else 0
  }

  /** Where the trailing whitespace of `s` begins, looking no further left
      than `lo`. */
  function TrailingWhitespaceFrom(s: string, lo: nat): (j: nat)
    requires lo <= |s|
    ensures lo <= j <= |s|
    ensures forall k :: j <= k < |s| ==> IsWhitespace(s[k])
    ensures lo < j ==> !IsWhitespace(s[j - 1])
    decreases |s|
  {
    if lo < |s| && IsWhitespace(s[|s| - 1]) then TrailingWhitespaceFrom(s[..|s| - 1], lo)
    else |s|
  }

  /** `t` is the slice of `s` starting at `i`, and everything of `s`
      outside that slice is whitespace. */
  ghost predicate SliceBetweenWhitespace(s: string, t: string, i: nat) {
    && i + |t| <= |s|
    && t == s[i..i + |t|]
    && (forall k :: 0 <= k < i ==> IsWhitespace(s[k]))
    && (forall k :: i + |t| <= k < |s| ==> IsWhitespace(s[k]))
  }

  /** `s.trim()`: the slice of `s` left after removing whitespace at both
      ends, which neither starts nor ends with whitespace. */
  function Trim(s: string): (t: string)
    ensures |t| > 0 ==> !IsWhitespace(t[0]) && !IsWhitespace(t[|t| - 1])
    ensures exists i: nat :: SliceBetweenWhitespace(s, t, i)
  {
    var i := LeadingWhitespace(s);
    var j := TrailingWhitespaceFrom(s, i);
    assert SliceBetweenWhitespace(s, s[i..j], i);
    s[i..j]
  }

  /** How many UTF-16 code units `c` takes: two above U+FFFF, else one. */
  function CodeUnits(c: char): nat {
    if c as int > 0xFFFF then 2 else 1
  }

  /** `s.length`: the number of UTF-16 code units of `s`. It is never less
      than the number of characters, never more than twice it, and equal
      to it exactly when no character lies above U+FFFF. */
  function Utf16Length(s: string): (n: nat)
    ensures |s| <= n <= 2 * |s|
    ensures n == |s| <==> forall k :: 0 <= k < |s| ==> s[k] as int <= 0xFFFF
    decreases |s|
  {
    if |s| == 0 then 0 else CodeUnits(s[0]) + Utf16Length(s[1..])
  }

  /** The length of a concatenation is the sum of the lengths. */
  lemma {:induction false} Utf16LengthAppend(a: string, b: string)
    ensures Utf16Length(a + b) == Utf16Length(a) + Utf16Length(b)
    decreases |a|
  {
    if |a| > 0 {
      assert (a + b)[0] == a[0];
      assert (a + b)[1..] == a[1..] + b;
      Utf16LengthAppend(a[1..], b);
    } else {
      assert a + b == b;
    }
  }

  /** A string of characters all above U+FFFF is twice as long in code
      units as in characters. */
  lemma {:induction false} Utf16LengthAllAstral(s: string)
    requires forall k :: 0 <= k < |s| ==> s[k] as int > 0xFFFF
    ensures Utf16Length(s) == 2 * |s|
    decreases |s|
  {
    if |s| > 0 {
      assert forall k :: 0 <= k < |s[1..]| ==> s[1..][k] == s[k + 1];
      Utf16LengthAllAstral(s[1..]);
    }
  }

  /** `s.split(sep)` for a one-character separator: the maximal runs
      between separators, including the empty runs two adjacent
      separators (or a separator at either end) delimit. */
  function Split(s: string, sep: char): (parts: seq<string>)
    ensures |parts| >= 1
    ensures forall k :: 0 <= k < |parts| ==> sep !in parts[k]
    decreases |s|
  {
    if |s| == 0 then [""]
    else
      var rest := Split(s[1..], sep);
      if s[0] == sep then [""] + rest
      else [[s[0]] + rest[0]] + rest[1..]
  }

  /** `parts.join(sep)`. */
  function Join(parts: seq<string>, sep: char): string
    decreases |parts|
  {
    if |parts| == 0 then ""
    else if |parts| == 1 then parts[0]
    else parts[0] + [sep] + Join(parts[1..], sep)
  }

  /** Joining the pieces of a split restores the string. */
  lemma {:induction false} JoinSplit(s: string, sep: char)
    ensures Join(Split(s, sep), sep) == s
    decreases |s|
  {
    if |s| > 0 {
      var rest := Split(s[1..], sep);
      JoinSplit(s[1..], sep);
      if s[0] == sep {
        assert ([""] + rest)[1..] == rest;
        assert s == [sep] + s[1..];
      } else if |rest| == 1 {
        assert s == [s[0]] + s[1..];
      } else {
        var parts := [[s[0]] + rest[0]] + rest[1..];
        assert parts[1..] == rest[1..];
        assert Join(rest, sep) == rest[0] + [sep] + Join(rest[1..], sep);
        assert s == [s[0]] + s[1..];
      }
    }
  }

  /** Splitting a string whose first piece `p` holds no separator. */
  lemma {:induction false} SplitPrefix(p: string, tail: string, sep: char)
    requires sep !in p
    ensures Split(p + tail, sep)
      == [p + Split(tail, sep)[0]] + Split(tail, sep)[1..]
    decreases |p|
  {
    if |p| == 0 {
      var parts := Split(tail, sep);
      assert p + tail == tail;
      assert p + parts[0] == parts[0];
      assert parts == [parts[0]] + parts[1..];
    } else {
      var x := Split(tail, sep);
      var s := p + tail;
      SplitPrefix(p[1..], tail, sep);
      assert s[0] == p[0] && s[0] != sep;
      assert s[1..] == p[1..] + tail;
      var rest := Split(s[1..], sep);
      assert rest == [p[1..] + x[0]] + x[1..];
      assert rest[0] == p[1..] + x[0] && rest[1..] == x[1..];
      assert Split(s, sep) == [[s[0]] + rest[0]] + rest[1..];
      assert [p[0]] + (p[1..] + x[0]) == p + x[0];
    }
  }

  /** Splitting a join of separator-free pieces returns the pieces. */
  lemma {:induction false} SplitJoin(parts: seq<string>, sep: char)
    requires |parts| >= 1
    requires forall k :: 0 <= k < |parts| ==> sep !in parts[k]
    ensures Split(Join(parts, sep), sep) == parts
    decreases |parts|
  {
    if |parts| == 1 {
      SplitPrefix(parts[0], "", sep);
      assert parts[0] + "" == parts[0];
    } else {
      var tail := Join(parts[1..], sep);
      SplitJoin(parts[1..], sep);
      SplitPrefix(parts[0], [sep] + tail, sep);
      var rest := [sep] + tail;
      assert rest[1..] == tail;
      assert Split(rest, sep) == [""] + parts[1..];
      assert Join(parts, sep) == parts[0] + rest;
      assert ([""] + parts[1..])[1..] == parts[1..];
      assert parts[0] + "" == parts[0];
      assert parts == [parts[0]] + parts[1..];
    }
  }

  /** Rejoining the tokens after the first two gives exactly the rest of
      the string once the first two tokens and their separators are
      dropped. */
  lemma {:induction false} JoinFromThirdToken(s: string, sep: char)
    requires |Split(s, sep)| >= 3
    ensures var parts := Split(s, sep);
      |parts[0]| + |parts[1]| + 2 <= |s|
      && Join(parts[2..], sep) == s[|parts[0]| + |parts[1]| + 2..]
  {
    var parts := Split(s, sep);
    JoinSplit(s, sep);
    assert parts[1..][1..] == parts[2..];
    assert Join(parts[1..], sep) == parts[1] + [sep] + Join(parts[2..], sep);
    assert s == parts[0] + [sep] + parts[1] + [sep] + Join(parts[2..], sep);
  }

  /** Two adjacent separators delimit an empty token. */
  lemma AdjacentSeparatorsGiveEmptyToken()
    ensures Split("a  b", ' ') == ["a", "", "b"]
  {
    var parts := ["a", "", "b"];
    assert Join(parts[2..], ' ') == "b";
    assert Join(parts[1..], ' ') == " b";
    assert Join(parts, ' ') == "a  b";
    SplitJoin(parts, ' ');
  }

  /** A string with no whitespace at either end is its own trim. */
  lemma TrimOfTrimmed(s: string)
    requires |s| > 0 ==> !IsWhitespace(s[0]) && !IsWhitespace(s[|s| - 1])
    ensures Trim(s) == s
  {
    assert LeadingWhitespace(s) == 0;
    assert TrailingWhitespaceFrom(s, 0) == |s|;
    assert s[0..|s|] == s;
  }

  /** Trimming is idempotent. */
  lemma TrimTwice(s: string)
    ensures Trim(Trim(s)) == Trim(s)
  {
    TrimOfTrimmed(Trim(s));
  }
}

=== FILE: peers.dfy ===
/**
 The two ways a connection enters the registry and the two ways it leaves:
 the server's accept callback with its close handler, and `connectToPeer`
 with the connect and close callbacks of the client socket it creates.
 Each callback is one atomic transition, since the runtime runs callbacks
 one at a time.
 */
module Peers {
  import opened Seqs
  import opened Registry
  import opened Host

  /** The inbound accept callback: register the socket under the next id
      (the peer port is the number the socket reports) and announce it. */
  function Accept(r: Registry, socket: Socket, address: string, port: nat): (s: Step)
    ensures s.registry.nextId == r.nextId + 1
    ensures s.registry.connections
      == r.connections + [Connection(r.nextId, socket, address, NumPort(port))]
    ensures s.effects == [Say(NewConnectionAccepted(r.nextId, address, port))]
    ensures Valid(r) ==> Valid(s.registry) && !HasId(r, r.nextId)
  {
    var r' := Insert(r, socket, address, NumPort(port));
    assert r'.connections == r'.connections[..|r.connections|] + [r'.connections[|r.connections|]];
    Step(r', [Say(NewConnectionAccepted(r.nextId, address, port))])
  }

  /** The inbound close handler, which knows the id its accept assigned:
      exactly the records with that id go, the counter stays. */
  function InboundClose(r: Registry, id: nat, address: string, port: nat): (s: Step)
    ensures s.registry.nextId == r.nextId
    ensures !HasId(s.registry, id)
    ensures forall c :: c in r.connections && c.id != id ==> c in s.registry.connections
    ensures forall c :: c in s.registry.connections ==> c in r.connections
    ensures Valid(r) ==> Valid(s.registry)
    ensures s.effects == [Say(InboundConnectionClosed(id, address, port))]
  {
    Step(RemoveById(r, id), [Say(InboundConnectionClosed(id, address, port))])
  }

  /** `destPort == listeningPort && destIP === getMyIP()`: both ports are
      strings here, so the comparison is exact text equality. */
  predicate IsSelf(env: Env, destIP: string, destPort: string) {
    destPort == env.listeningPort && destIP == env.myIP
  }

  /** `conn.remotePort == destPort` with JavaScript's loose equality: a
      numeric port is compared with the number the text denotes, a textual
      port with the text itself. */
  predicate PortMatches(env: Env, port: Port, destPort: string) {
    match port
    case NumPort(n) => env.toNumber(destPort) == Some(n)
    case TextPort(t) => t == destPort
  }

  predicate SameEndpoint(env: Env, c: Connection, destIP: string, destPort: string) {
    c.remoteAddress == destIP && PortMatches(env, c.remotePort, destPort)
  }

  /** `connectToPeer`: refuse a connection to this very process, then one
      to an endpoint some record already has; only otherwise dial, on the
      fresh socket `client`. Neither refusal creates a socket, and nothing
      here touches the registry, which changes only once the dial
      succeeds. */
  function ConnectToPeer(env: Env, r: Registry, client: Socket, destIP: string, destPort: string): (s: Step)
    ensures s.registry == r
    ensures IsSelf(env, destIP, destPort) ==> s.effects == [Say(CannotConnectToSelf)]
    ensures !IsSelf(env, destIP, destPort)
      && (exists i :: 0 <= i < |r.connections| && SameEndpoint(env, r.connections[i], destIP, destPort))
      ==> s.effects == [Say(ConnectionExists)]
    ensures s.effects == [Dial(client, destIP, destPort)]
      <==> (!IsSelf(env, destIP, destPort)
            && forall i :: 0 <= i < |r.connections| ==> !SameEndpoint(env, r.connections[i], destIP, destPort))
  {
    if IsSelf(env, destIP, destPort) then
      Step(r, [Say(CannotConnectToSelf)])
    else match FirstIndex(r.connections, (c: Connection) => SameEndpoint(env, c, destIP, destPort))
      case Some(_) => Step(r, [Say(ConnectionExists)])
      case None => Step(r, [Dial(client, destIP, destPort)])
  }

  /** The connect callback of a dial: register the client socket under the
      next id, keeping the address and the port text the operator typed. */
  function Connected(r: Registry, client: Socket, destIP: string, destPort: string): (s: Step)
    ensures s.registry.nextId == r.nextId + 1
    ensures s.registry.connections
      == r.connections + [Connection(r.nextId, client, destIP, TextPort(destPort))]
    ensures s.effects == [Say(ConnectionEstablished(r.nextId, destIP, destPort))]
    ensures Valid(r) ==> Valid(s.registry) && !HasId(r, r.nextId)
  {
    var r' := Insert(r, client, destIP, TextPort(destPort));
    assert r'.connections == r'.connections[..|r.connections|] + [r'.connections[|r.connections|]];
    Step(r', [Say(ConnectionEstablished(r.nextId, destIP, destPort))])
  }

  /** The close handler of a dialled socket, which knows the socket but not
      an id: exactly the records on that socket go, the counter stays. */
  function OutboundClose(r: Registry, client: Socket, destIP: string, destPort: string): (s: Step)
    ensures s.registry.nextId == r.nextId
    ensures !HoldsSocket(s.registry, client)
    ensures forall c :: c in r.connections && c.socket != client ==> c in s.registry.connections
    ensures forall c :: c in s.registry.connections ==> c in r.connections
    ensures Valid(r) ==> Valid(s.registry)
    ensures !HoldsSocket(r, client) ==> s.registry == r
    ensures s.effects == [Say(OutboundConnectionClosed(destIP, destPort))]
  {
    assert !HoldsSocket(r, client) ==> RemoveBySocket(r, client) == r by {
      if !HoldsSocket(r, client) {
        RemoveAbsentSocket(r, client);
      }
    }
    Step(RemoveBySocket(r, client), [Say(OutboundConnectionClosed(destIP, destPort))])
  }

  /** The duplicate check sees only established connections: while a dial
      is in flight, a second dial to the same endpoint passes it as well,
      and once both connect the registry holds two records for that
      endpoint. */
  lemma DialsInFlightBothPass(env: Env, r: Registry, c1: Socket, c2: Socket, destIP: string, destPort: string)
    requires ConnectToPeer(env, r, c1, destIP, destPort).effects == [Dial(c1, destIP, destPort)]
    ensures ConnectToPeer(env, r, c2, destIP, destPort).effects == [Dial(c2, destIP, destPort)]
    ensures var after := Connected(Connected(r, c1, destIP, destPort).registry, c2, destIP, destPort).registry;
      var n := |r.connections|;
      |after.connections| == n + 2
      && SameEndpoint(env, after.connections[n], destIP, destPort)
      && SameEndpoint(env, after.connections[n + 1], destIP, destPort)
      && after.connections[n].id != after.connections[n + 1].id
  {
  }
}

=== FILE: registry.dfy ===
/**
 The connection registry of the chat peer: the list of live connections and
 the counter that hands out their ids. Every transition that touches it is
 one of the three operations here (append with a fresh id, remove by id,
 remove by socket).
 */
module Registry {
  import opened Seqs

  /** An opaque transport handle; two connections share a socket only if
      they are the same socket object. */
  type Socket = nat

  /** The `remotePort` field. An accepted socket reports its peer port as a
      number; a dialled connection stores the port argument exactly as the
      operator typed it. */
  datatype Port = NumPort(number: nat) | TextPort(text: string)

  datatype Connection = Connection(
    id: nat,
    socket: Socket,
    remoteAddress: string,
    remotePort: Port)

  datatype Registry = Registry(connections: seq<Connection>, nextId: nat)

  /** The state before any connection: no records and ids starting at 1. */
  const Initial: Registry := Registry([], 1)

  /** Ids are positive, below the counter, and strictly ascending in list
      order (so in particular unique). */
  predicate Valid(r: Registry) {
    && r.nextId >= 1
    && (forall i :: 0 <= i < |r.connections| ==> 1 <= r.connections[i].id < r.nextId)
    && Ascending(r.connections)
  }

  predicate Ascending(cs: seq<Connection>) {
    forall i, j :: 0 <= i < j < |cs| ==> cs[i].id < cs[j].id
  }

  predicate HasId(r: Registry, id: nat) {
    exists i :: 0 <= i < |r.connections| && r.connections[i].id == id
  }

  predicate HoldsSocket(r: Registry, socket: Socket) {
    exists i :: 0 <= i < |r.connections| && r.connections[i].socket == socket
  }

  lemma InitialValid()
    ensures Valid(Initial)
  {
  }

  /** Registering a connection: the record gets the current counter as its
      id, the counter moves on by exactly one, and the record goes to the
      end of the list. The new id is fresh, so validity is kept. */
  function Insert(r: Registry, socket: Socket, address: string, port: Port): (r': Registry)
    ensures r'.nextId == r.nextId + 1
    ensures |r'.connections| == |r.connections| + 1
    ensures r'.connections[..|r.connections|] == r.connections
    ensures r'.connections[|r.connections|] == Connection(r.nextId, socket, address, port)
    ensures Valid(r) ==> Valid(r') && !HasId(r, r.nextId)
  {
    Registry(r.connections + [Connection(r.nextId, socket, address, port)], r.nextId + 1)
  }

  /** The inbound close handler's filter: drop every record with this id. */
  function RemoveById(r: Registry, id: nat): (r': Registry)
    ensures r'.nextId == r.nextId
    ensures !HasId(r', id)
    ensures forall c :: c in r.connections && c.id != id ==> c in r'.connections
    ensures forall c :: c in r'.connections ==> c in r.connections
    ensures Valid(r) ==> Valid(r')
  {
    var kept := Filter(r.connections, (c: Connection) => c.id != id);
    assert Valid(r) ==> Valid(Registry(kept, r.nextId)) by {
      if Valid(r) {
        FilterKeepsAscending(r.connections, (c: Connection) => c.id != id);
      }
    }
    Registry(kept, r.nextId)
  }

  /** The outbound close handler's filter: drop every record on this socket. */
  function RemoveBySocket(r: Registry, socket: Socket): (r': Registry)
    ensures r'.nextId == r.nextId
    ensures !HoldsSocket(r', socket)
    ensures forall c :: c in r.connections && c.socket != socket ==> c in r'.connections
    ensures forall c :: c in r'.connections ==> c in r.connections
    ensures Valid(r) ==> Valid(r')
  {
    var kept := Filter(r.connections, (c: Connection) => c.socket != socket);
    assert Valid(r) ==> Valid(Registry(kept, r.nextId)) by {
      if Valid(r) {
        FilterKeepsAscending(r.connections, (c: Connection) => c.socket != socket);
      }
    }
    Registry(kept, r.nextId)
  }

  /** Filtering keeps ids strictly ascending. */
  lemma {:induction false} FilterKeepsAscending(cs: seq<Connection>, keep: Connection -> bool)
    requires Ascending(cs)
    ensures Ascending(Filter(cs, keep))
    decreases |cs|
  {
    if |cs| > 0 {
      var rest := Filter(cs[1..], keep);
      FilterKeepsAscending(cs[1..], keep);
      if keep(cs[0]) {
        var r := [cs[0]] + rest;
        forall i, j | 0 <= i < j < |r|
          ensures r[i].id < r[j].id
        {
          if i == 0 {
            assert r[j] in cs[1..];
          }
        }
      }
    }
  }

  /** Removal by id keeps the survivors in their original order. */
  lemma RemoveByIdKeepsOrder(r: Registry, id: nat)
    ensures Subseq(RemoveById(r, id).connections, r.connections)
  {
    FilterIsSubseq(r.connections, (c: Connection) => c.id != id);
  }

  /** In a valid registry, closing the connection at index `i` deletes
      exactly that record and nothing else. */
  lemma RemoveByIdExact(r: Registry, i: nat)
    requires Valid(r)
    requires i < |r.connections|
    ensures RemoveById(r, r.connections[i].id).connections
      == r.connections[..i] + r.connections[i + 1..]
  {
    var id := r.connections[i].id;
    FilterRejectsOne(r.connections, (c: Connection) => c.id != id, i);
  }

  /** A second close for the same id changes nothing. */
  lemma RemoveByIdTwice(r: Registry, id: nat)
    ensures RemoveById(RemoveById(r, id), id) == RemoveById(r, id)
  {
    FilterTwice(r.connections, (c: Connection) => c.id != id);
  }

  /** Closing an id that has no record changes nothing. */
  lemma RemoveAbsentId(r: Registry, id: nat)
    requires !HasId(r, id)
    ensures RemoveById(r, id) == r
  {
    FilterAllKept(r.connections, (c: Connection) => c.id != id);
  }

  /** Removal by socket keeps the survivors in their original order. */
  lemma RemoveBySocketKeepsOrder(r: Registry, socket: Socket)
    ensures Subseq(RemoveBySocket(r, socket).connections, r.connections)
  {
    FilterIsSubseq(r.connections, (c: Connection) => c.socket != socket);
  }

  /** A second close for the same socket changes nothing. */
  lemma RemoveBySocketTwice(r: Registry, socket: Socket)
    ensures RemoveBySocket(RemoveBySocket(r, socket), socket) == RemoveBySocket(r, socket)
  {
    FilterTwice(r.connections, (c: Connection) => c.socket != socket);
  }

  /** A socket that never got a record (a dial that never connected) is
      filtered out of nothing. */
  lemma RemoveAbsentSocket(r: Registry, socket: Socket)
    requires !HoldsSocket(r, socket)
    ensures RemoveBySocket(r, socket) == r
  {
    FilterAllKept(r.connections, (c: Connection) => c.socket != socket);
  }
}

=== FILE: seqs.dfy ===
/**
 Sequence helpers shared by the chat model: an `Option` type, the
 `filter` and `find` operations of JavaScript arrays, and the subsequence
 relation used to say that a filter keeps the survivors in their order.
 */
module Seqs {

  datatype Option<+T> = None | Some(value: T)

  /** `s` is obtained from `t` by deleting elements, without reordering. */
  predicate Subseq<T(==)>(s: seq<T>, t: seq<T>)
    decreases |t|
  {
    if |s| == 0 then true
    else if |t| == 0 then false
    else if s[0] == t[0] then Subseq(s[1..], t[1..])
    else Subseq(s, t[1..])
  }

  /** The elements of `s` that `keep` accepts, in their original order
      (`Array.prototype.filter`). */
  function Filter<T(==)>(s: seq<T>, keep: T -> bool): (r: seq<T>)
    ensures |r| <= |s|
    ensures forall j :: 0 <= j < |r| ==> r[j] in s && keep(r[j])
    ensures forall j :: 0 <= j < |s| && keep(s[j]) ==> s[j] in r
    decreases |s|
  {
    if |s| == 0 then []
    else if keep(s[0]) then [s[0]] + Filter(s[1..], keep)
    else Filter(s[1..], keep)
  }

  /** Index of the first element `p` accepts, if any (`Array.prototype.find`
      answers with the element at that index). */
  function FirstIndex<T>(s: seq<T>, p: T -> bool): (r: Option<nat>)
    ensures r.Some? ==> r.value < |s| && p(s[r.value])
    ensures r.Some? ==> forall j :: 0 <= j < r.value ==> !p(s[j])
    ensures r.None? <==> forall j :: 0 <= j < |s| ==> !p(s[j])
    decreases |s|
  {
    if |s| == 0 then None
    else if p(s[0]) then Some(0)
    else match FirstIndex(s[1..], p)
      case None => None
      case Some(i) => Some(i + 1)
  }

  /** A filter keeps its survivors in their original order. */
  lemma {:induction false} FilterIsSubseq<T>(s: seq<T>, keep: T -> bool)
    ensures Subseq(Filter(s, keep), s)
    decreases |s|
  {
    if |s| > 0 {
      FilterIsSubseq(s[1..], keep);
      var rest := Filter(s[1..], keep);
      if keep(s[0]) {
        assert Filter(s, keep) == [s[0]] + rest;
        assert ([s[0]] + rest)[1..] == rest;
      } else {
        SubseqOfTail(rest, s);
      }
    }
  }

  /** A subsequence of the tail is a subsequence of the whole. */
  lemma {:induction false} SubseqOfTail<T>(s: seq<T>, t: seq<T>)
    requires |t| > 0
    requires Subseq(s, t[1..])
    ensures Subseq(s, t)
    decreases |t|, 0
  {
    if |s| > 0 && s[0] == t[0] {
      SubseqDropHead(s, t[1..]);
    }
  }

  /** Dropping the head of a non-empty subsequence keeps it a subsequence. */
  lemma {:induction false} SubseqDropHead<T>(s: seq<T>, t: seq<T>)
    requires |s| > 0
    requires Subseq(s, t)
    ensures Subseq(s[1..], t)
    decreases |t|, 1
  {
    if s[0] == t[0] {
      if |s| > 1 {
        SubseqOfTail(s[1..], t);
      }
    } else {
      SubseqDropHead(s, t[1..]);
      SubseqOfTail(s[1..], t);
    }
  }

  /** Filtering a second time with the same test changes nothing. */
  lemma {:induction false} FilterTwice<T>(s: seq<T>, keep: T -> bool)
    ensures Filter(Filter(s, keep), keep) == Filter(s, keep)
  {
    FilterAllKept(Filter(s, keep), keep);
  }

  /** A filter that rejects nothing returns its input. */
  lemma {:induction false} FilterAllKept<T>(s: seq<T>, keep: T -> bool)
    requires forall j :: 0 <= j < |s| ==> keep(s[j])
    ensures Filter(s, keep) == s
    decreases |s|
  {
    if |s| > 0 {
      FilterAllKept(s[1..], keep);
      assert [s[0]] + s[1..] == s;
    }
  }

  /** A filter that rejects exactly the element at index `i` deletes that
      element and nothing else. */
  lemma {:induction false} FilterRejectsOne<T>(s: seq<T>, keep: T -> bool, i: nat)
    requires i < |s|
    requires !keep(s[i])
    requires forall j :: 0 <= j < |s| && j != i ==> keep(s[j])
    ensures Filter(s, keep) == s[..i] + s[i + 1..]
    decreases |s|
  {
    if i == 0 {
      FilterAllKept(s[1..], keep);
    } else {
      FilterRejectsOne(s[1..], keep, i - 1);
      assert s[1..][..i - 1] == s[1..i];
      assert s[1..][i..] == s[i + 1..];
      assert [s[0]] + s[1..i] == s[..i];
    }
  }
}

=== FILE: trace.dfy ===
/**
 The peer as one state machine: every callback the runtime can deliver is an
 `Event`, `Next` applies one atomically, and `Run` applies a whole sequence.
 The lemmas here are the registry invariants over arbitrary event orders.
 */
module Trace {
  import opened Seqs
  import opened Registry
  import opened Host
  import opened Peers
  import opened Commands

  datatype Event =
      /** the server accepted `socket` from `address`:`port` */
    | Accepted(socket: Socket, address: string, port: nat)
      /** the close handler of the connection accepted as `closedId` */
    | AcceptedClosed(closedId: nat, closedAddress: string, closedPort: nat)
      /** the error handler of an accepted socket */
    | AcceptedError(acceptError: string)
      /** the connect callback of the dial on `client` */
    | DialConnected(client: Socket, destIP: string, destPort: string)
      /** the close handler of the dial on `closedClient` */
    | DialClosed(closedClient: Socket, closedIP: string, closedPortText: string)
      /** the error handler of a dialled socket */
    | DialError(dialError: string)
      /** one operator line; `lineClient` is the socket a `connect` creates */
    | OperatorLine(line: string, lineClient: Socket)
      /** the operator input ended */
    | InputClosed

  predicate Registers(e: Event) {
    e.Accepted? || e.DialConnected?
  }

  /** One atomic transition. Only the four socket callbacks that register
      or drop a connection touch the registry; operator lines, errors and
      the end of input leave it as it was. A registration uses the current
      counter as the new id and moves the counter on by one. */
  function Next(env: Env, r: Registry, e: Event): (s: Step)
    ensures Valid(r) ==> Valid(s.registry)
    ensures s.registry.nextId == if Registers(e) then r.nextId + 1 else r.nextId
    ensures forall c :: c in s.registry.connections ==> c in r.connections || c.id == r.nextId
    ensures !(Registers(e) || e.AcceptedClosed? || e.DialClosed?) ==> s.registry == r
    ensures e.AcceptedClosed? ==> !HasId(s.registry, e.closedId)
    ensures e.DialClosed? ==> !HoldsSocket(s.registry, e.closedClient)
  {
    match e
    case Accepted(socket, address, port) => Accept(r, socket, address, port)
    case AcceptedClosed(id, address, port) => InboundClose(r, id, address, port)
    case AcceptedError(message) => Step(r, [Say(SocketError(message))])
    case DialConnected(client, destIP, destPort) => Connected(r, client, destIP, destPort)
    case DialClosed(client, destIP, destPort) => OutboundClose(r, client, destIP, destPort)
    case DialError(message) => Step(r, [Say(ConnectionError(message))])
    case OperatorLine(line, client) => HandleLine(env, r, client, line)
    case InputClosed => ExitProgram(r)
  }

  /** Each event runs its own callback: an accept or a connect registers
      through `Accept` or `Connected`, a close drops records through
      `InboundClose` or `OutboundClose`, an operator line goes to the line
      handler with its client socket, and the end of input exits. */
  lemma NextDispatch(env: Env, r: Registry, e: Event)
    ensures var s := Next(env, r, e);
      && (e.Accepted? ==> s == Accept(r, e.socket, e.address, e.port))
      && (e.AcceptedClosed? ==> s == InboundClose(r, e.closedId, e.closedAddress, e.closedPort))
      && (e.DialConnected? ==> s == Connected(r, e.client, e.destIP, e.destPort))
      && (e.DialClosed? ==> s == OutboundClose(r, e.closedClient, e.closedIP, e.closedPortText))
      && (e.OperatorLine? ==> s == HandleLine(env, r, e.lineClient, e.line))
      && (e.InputClosed? ==> s == ExitProgram(r))
      && (e.AcceptedError? ==> s.registry == r && s.effects == [Say(SocketError(e.acceptError))])
      && (e.DialError? ==> s.registry == r && s.effects == [Say(ConnectionError(e.dialError))])
  {
  }

  /** How many events of `events` register a connection. */
  function Registrations(events: seq<Event>): nat
    decreases |events|
  {
    if |events| == 0 then 0
    else (if Registers(events[0]) then 1 else 0) + Registrations(events[1..])
  }

  /** The registry after the events, in order. The counter ends exactly as
      many ids further on as there were registrations (so it never goes
      back), and validity holds throughout. */
  function Run(env: Env, r: Registry, events: seq<Event>): (r': Registry)
    ensures r'.nextId == r.nextId + Registrations(events)
    ensures Valid(r) ==> Valid(r')
    decreases |events|
  {
    if |events| == 0 then r
    else Run(env, Next(env, r, events[0]).registry, events[1..])
  }

  /** Running a prefix of the events leaves the counter no further on than
      running all of them. */
  lemma {:induction false} CounterMonotone(env: Env, r: Registry, events: seq<Event>, k: nat)
    requires k <= |events|
    ensures Run(env, r, events[..k]).nextId <= Run(env, r, events).nextId
    decreases |events|
  {
    if k > 0 {
      assert events[..k][0] == events[0];
      assert events[..k][1..] == events[1..][..k - 1];
      CounterMonotone(env, Next(env, r, events[0]).registry, events[1..], k - 1);
    }
  }

  /** Ids are never reused: every record after the events either was there
      before them or carries an id at least the counter's starting value. */
  lemma {:induction false} IdsNeverReused(env: Env, r: Registry, events: seq<Event>)
    ensures forall c :: c in Run(env, r, events).connections ==> c in r.connections || c.id >= r.nextId
    decreases |events|
  {
    if |events| > 0 {
      var r1 := Next(env, r, events[0]).registry;
      IdsNeverReused(env, r1, events[1..]);
    }
  }

  /** True when no event hands `socket` to the registry. */
  predicate NeverRegisters(events: seq<Event>, socket: Socket) {
    forall k :: 0 <= k < |events| ==>
      !(events[k].Accepted? && events[k].socket == socket)
      && !(events[k].DialConnected? && events[k].client == socket)
  }

  /** A socket that no event registers never gets a record. */
  lemma {:induction false} UnregisteredSocketHasNoRecord(env: Env, r: Registry, events: seq<Event>, socket: Socket)
    requires !HoldsSocket(r, socket)
    requires NeverRegisters(events, socket)
    ensures !HoldsSocket(Run(env, r, events), socket)
    decreases |events|
  {
    if |events| > 0 {
      var r1 := Next(env, r, events[0]).registry;
      UnregisteredSocketHasNoRecord(env, r1, events[1..], socket);
    }
  }

  /** The close event of a dial that never connected finds nothing to
      drop, however many other events came between dial and close. */
  lemma FailedDialCloseIsNoOp(env: Env, r: Registry, events: seq<Event>, client: Socket, destIP: string, destPort: string)
    requires !HoldsSocket(r, client)
    requires NeverRegisters(events, client)
    ensures var before := Run(env, r, events);
      Next(env, before, DialClosed(client, destIP, destPort)).registry == before
  {
    UnregisteredSocketHasNoRecord(env, r, events, client);
  }

  /** From the initial state, every reachable registry is valid. */
  lemma ReachableIsValid(env: Env, events: seq<Event>)
    ensures Valid(Run(env, Initial, events))
  {
    InitialValid();
  }
}
